=== FILE: README.md ===
# Budget tracker store and aggregations, in Dafny

This project models the two pure pieces under the budget tracker's React UI.

- **The transaction store** (`transactions.dfy`, module `Transactions`). A `Transaction` has an id, a description, an amount, a type (income or expense), a category and a date. The reducer maps a state and one of three actions to a new state:
  - ADD appends the payload.
  - EDIT replaces, in place, every transaction whose id is the payload's id.
  - DELETE keeps the transactions whose id differs from the given one.

  The module also holds the four seed transactions and `addTransaction`, which stamps the caller's fields with a generated id and dispatches ADD.
- **The aggregation functions** (`calculations.ts`, module `Calculations`):
  - `calculateBalance` adds income amounts and subtracts every other amount.
  - `calculateIncome` and `calculateExpense` filter by type, then sum.
  - `calculateCategoryTotals` groups one type by category and returns `{name, value}` pairs.

  Each is written as the left fold the source's `reduce` performs. It is related by lemmas to an independent right-recursive sum, `Total`.
- **The store as a state machine** (`store.dfy`, module `Store`). This module proves how ADD, EDIT and DELETE move the totals. It also proves that every run of admissible actions from the seed keeps these facts:
  - ids stay distinct;
  - income and expense stay non-negative;
  - balance equals income minus expense.

  An action is admissible when its payload passes the form's rules and an ADD carries a fresh id.

A few modelling choices:
- Amounts are exact `real` numbers, not JavaScript floating point.
- The source's field `type` is called `kind`, because `type` is a Dafny keyword.
- The state is the `transactions` list itself, since the source's state object has no other field.
- Category totals are a sequence of `CategoryTotal(name, value)` entries. This replaces the JavaScript object the source builds.

Two facts about the reducer shape what the model can promise:
- DELETE and EDIT act on *every* transaction with a matching id, not just one. DELETE shortens the list by exactly one when exactly one transaction has that id, as distinct ids guarantee (`Store.DeletePresentRemovesOne`). In general the list shortens by the number of matches (`Transactions.Reduce`).
- The reducer does not check that an added id is fresh. ADD keeps ids distinct exactly when the payload's id is fresh (`Transactions.AddDistinctIdsIff`). The ids come from `Date.now().toString()`, which can repeat, so the distinct-ids results rest on an assumed fresh id (see "Left out").

## Model

| member | source | states |
|---|---|---|
| Transactions.Reduce | src/context/TransactionContext.tsx:62-84 | ADD gives the old list with the payload appended after it. EDIT keeps the length and is a no-op when the id is absent. DELETE shortens the list by the number of matching ids, leaves no transaction with that id, and returns the input unchanged exactly when the id is absent. |
| Transactions.EditAll | src/context/TransactionContext.tsx:69-75 | Same length. Each position whose id is the payload's id now holds the payload, and every other position is unchanged. Every id stays at its position. With the id absent, the result equals the input. |
| Transactions.Remove | src/context/TransactionContext.tsx:76-80 | The length drops by the number of transactions with the deleted id. With the id absent, the result equals the input. |
| Transactions.RemoveMembers | src/context/TransactionContext.tsx:79 | A transaction is in the result of DELETE iff it is in the input and its id differs from the deleted one. |
| Transactions.DeleteKeepsOrder | src/context/TransactionContext.tsx:76-80 | The survivors keep their relative order. The k-th survivor is the input at the k-th kept position. Kept positions strictly increase and include every position whose id differs. |
| Transactions.EditIdempotent | src/context/TransactionContext.tsx:72-74 | Applying the same EDIT twice equals applying it once. |
| Transactions.DeleteIdempotent | src/context/TransactionContext.tsx:79 | Deleting the same id twice equals deleting it once. |
| Transactions.EditPreservesDistinctIds | src/context/TransactionContext.tsx:69-75 | If ids are pairwise distinct before an EDIT, they are distinct after it. |
| Transactions.DeletePreservesDistinctIds | src/context/TransactionContext.tsx:76-80 | If ids are pairwise distinct before a DELETE, they are distinct after it. |
| Transactions.AddDistinctIdsIff | src/context/TransactionContext.tsx:64-68 | After ADD, ids are distinct iff they were distinct before and the payload's id was not present. |
| Transactions.ReducePreservesDistinctIds | src/context/TransactionContext.tsx:62-84 | From distinct ids, the reducer keeps ids distinct iff the action is not an ADD of an id already present. |
| Transactions.StampStripRoundTrip | src/context/TransactionContext.tsx:98-102 | Stamping copies every caller field unchanged and sets the generated id. Every transaction is its own fields stamped with its own id. |
| Transactions.Stamp | src/context/TransactionContext.tsx:99-102 | No contract of its own; `Transactions.StampStripRoundTrip` states that stamping keeps every caller field and sets the given id. |
| Transactions.AddTransaction | src/context/TransactionContext.tsx:98-103 | For any id, fresh or not: the old list is kept as a prefix, and one transaction is appended. That transaction has the caller's fields and the given id. Ids are distinct afterwards iff they were distinct before and the id was not already present. |
| Transactions.SeedDistinctIds | src/context/TransactionContext.tsx:25-60 | The four seed transactions have pairwise distinct ids. |
| Calculations.OfType | src/utils/calculations.ts:14-24 | The type filter keeps exactly the input's transactions of the requested type, and never lengthens the list. How often each is kept is stated by `Calculations.OfTypeMultiset`. |
| Calculations.OfTypeMultiset | src/utils/calculations.ts:14-24 | The type filter keeps each transaction of the requested type as many times as it occurs in the input, and no other transaction. |
| Calculations.InCategoryMultiset | src/utils/calculations.ts:29-36 | Restricting to one category keeps each transaction of that category as many times as it occurs, and no other transaction. |
| Calculations.OfTypePartition | src/utils/calculations.ts:14-24 | The income filter and the expense filter together keep every transaction of the input exactly as often as it occurs. |
| Calculations.CalculateBalance | src/utils/calculations.ts:4-12 | No contract of its own; `Calculations.BalanceIsIncomeMinusExpense` states its meaning, with `Calculations.EmptyTotals` and `Calculations.TotalsAdditive`. |
| Calculations.CalculateIncome | src/utils/calculations.ts:14-18 | No contract of its own; `Calculations.IncomeExpenseAreTotals` states it is the reference sum of the income amounts. |
| Calculations.CalculateExpense | src/utils/calculations.ts:20-24 | No contract of its own; `Calculations.IncomeExpenseAreTotals` states it is the reference sum of the expense amounts. |
| Calculations.SumFromIsTotal | src/utils/calculations.ts:17 | The summing `reduce` from an accumulator equals the accumulator plus the reference sum of the amounts. |
| Calculations.IncomeExpenseAreTotals | src/utils/calculations.ts:14-24 | Income is the reference sum of the income transactions' amounts, and expense likewise for expense transactions. |
| Calculations.BalanceIsIncomeMinusExpense | src/utils/calculations.ts:4-24 | Balance equals income minus expense for every list. |
| Calculations.EmptyTotals | src/utils/calculations.ts:4-24 | Balance, income and expense are 0 on the empty list. |
| Calculations.TotalsAdditive | src/utils/calculations.ts:4-24 | Income, expense and balance of a concatenation are the sums of the parts' values. |
| Calculations.TotalsNonNegative | src/utils/calculations.ts:14-24 | When every amount is non-negative, income and expense are non-negative. |
| Calculations.Credit | src/utils/calculations.ts:29-36 | One grouping step adds the amount to the category's value and leaves every other category's value unchanged. It adds the category name if missing, keeps names unique, and raises the value sum by the amount. |
| Calculations.GroupSpec | src/utils/calculations.ts:29-36 | Grouping from distinct names keeps names distinct. The names become those already there plus the categories of the input. Each value grows by the sum of that category's amounts, and the value sum grows by the total amount. |
| Calculations.CalculateCategoryTotals | src/utils/calculations.ts:26-42 | Each name occurs at most once. The names are exactly the categories of transactions of the requested type. Each value is the sum of the amounts of that type and category. The values sum to the total of that type. |
| Calculations.CategoryTotalsSumToTotals | src/utils/calculations.ts:14-42 | The income category values sum to income, and the expense category values sum to expense. |
| Store.AddMovesTotals | src/context/TransactionContext.tsx:64-68 | ADD raises the payload type's total by the payload's amount and leaves the other type's total unchanged. Balance moves by the signed amount. |
| Store.DeletePresentRemovesOne | src/context/TransactionContext.tsx:76-80 | With distinct ids, deleting the id at position i removes exactly that transaction. The length drops by one. |
| Store.DeleteMovesTotals | src/context/TransactionContext.tsx:76-80 | With distinct ids, deleting a present id subtracts that transaction's amount from the total of its type. |
| Store.EditMovesTotals | src/context/TransactionContext.tsx:69-75 | With distinct ids, EDIT of the id at position i replaces exactly that position. Each total loses the old transaction's contribution and gains the payload's. |
| Store.ReduceKeepsInvariant | src/context/TransactionContext.tsx:62-84 | An admissible action keeps ids distinct and every transaction valid. |
| Store.Run | src/context/TransactionContext.tsx:96 | No contract of its own; `Store.RunKeepsInvariant` and `Store.ReachableStates` state what every run keeps. |
| Store.RunKeepsInvariant | src/context/TransactionContext.tsx:96 | Every admissible sequence of dispatched actions keeps the invariant. |
| Store.ReachableStates | src/context/TransactionContext.tsx:25-84 | Every state reached from the seed by admissible actions has distinct ids and non-negative income and expense. Its balance equals income minus expense, which holds of every list (`Calculations.BalanceIsIncomeMinusExpense`) and is restated for the dashboard. |
| Store.SeedFigures | src/utils/calculations.ts:4-24 | On the seed list, balance is 4650, income 6000 and expense 1350. |
| Store.SeedExpenseCategories | src/utils/calculations.ts:26-42 | The seed's expense category totals, on the list as the reducer holds it, are Housing 1200, then Food 150. |
| Store.SortedSeedExpenseCategories | src/components/TransactionList.tsx:83-84 | On the seed after the list's in-place date sort, the expense category totals come out Food 150, then Housing 1200. |

## Left out

- `formatCurrency` (`src/utils/calculations.ts:44-49`) is not modelled. It delegates rounding and digit grouping to the platform's `Intl.NumberFormat`, which is not part of this model.
- JavaScript floating point is not modelled: amounts are exact reals. Sums therefore do not drift (no `0.1 + 0.2` error), and NaN and infinite amounts do not exist.
- `Date.now().toString()` id generation is not modelled. The id is a parameter of `Transactions.AddTransaction`, which accepts any id, as the source does. Two adds in the same millisecond, or after the clock moves back, get the same id, and nothing checks for it; `Transactions.AddTransaction` and `Transactions.AddDistinctIdsIff` state that ids then stop being distinct.
- Store.RunKeepsInvariant: covers only runs whose ADDs carry fresh ids (`Store.Admissible`). The source does not guarantee fresh ids, so a colliding add leaves the invariant, as `Transactions.AddDistinctIdsIff` states.
- Store.ReachableStates: makes the same fresh-id assumption through `Store.AdmissibleRun`, so it says nothing about states reached through a colliding add.
- The toast notifications and the React context and provider are not modelled; they are UI side effects. `Store.Run` models only the order in which `useReducer` applies dispatched actions. `editTransaction` and `deleteTransaction` only dispatch one action, so they are the EDIT and DELETE cases of `Transactions.Reduce`.
- The reducer's `default` branch is not modelled. It cannot be reached with the closed `Action` datatype.
- Calculations.CalculateCategoryTotals: does not state the output order. `Object.entries` lists integer-like keys in numeric order before the other keys in insertion order. The model appends new names in first-occurrence order, and no general lemma claims that order.
- Calculations.Credit: does not model JavaScript object-key quirks. The source's accumulator is a plain `{}`, so a category named like an `Object.prototype` member (for example `"constructor"`) would find an inherited value. The model treats every name as an ordinary key. Only a falsy entry is reset to 0, and with real amounts that entry already holds 0, so the reset never changes a value.
- The form's validation (`src/components/TransactionForm.tsx`) is not modelled. It only appears as the `Store.Valid` precondition on admissible ADD and EDIT payloads: a positive amount and non-empty text fields.
- The date sort in `src/components/TransactionList.tsx:83-84` is not modelled. It calls `sort` on the store's own array, so rendering the list reorders the stored transactions by date, newest first. The model ignores that mutation. The orders and positions stated here (ADD appends, EDIT replaces in place, DELETE keeps the survivors' order) hold for the reducer alone. Balance, income, expense and each category's value do not depend on the order. The order of the category totals' entries does: after the list renders, the seed's expense entries come out Food, then Housing (`Store.SortedSeedExpenseCategories`). The dashboard, summary card and page components are pure rendering and are left out.

=== FILE: calculations.dfy ===
/** The aggregation functions of the budget tracker: balance, income,
    expense and per-category totals of a list of transactions. Each is a pure
    left fold, as the source's `reduce` calls are; `Total` is an independent
    right-recursive sum the lemmas relate them to. */
module Calculations {
  import opened Transactions

  /** The `filter` on a transaction type: each transaction of type `k` is
      kept as many times as it occurs, every other one is dropped. */
  function OfType(ts: seq<Transaction>, k: TransactionType): (r: seq<Transaction>)
    ensures |r| <= |ts|
    ensures forall t :: t in r <==> t in ts && t.kind == k
  {
    if ts == [] then []
    else (if ts[0].kind == k then [ts[0]] else []) + OfType(ts[1..], k)
  }

  /** The transactions of `ts` in category `c`, each kept as many times as it
      occurs. */
  function InCategory(ts: seq<Transaction>, c: string): (r: seq<Transaction>)
    ensures |r| <= |ts|
    ensures forall t :: t in r <==> t in ts && t.category == c
  {
    if ts == [] then []
    else (if ts[0].category == c then [ts[0]] else []) + InCategory(ts[1..], c)
  }

  /** The type filter keeps each transaction of type `k` exactly as often as
      it occurs in `ts`, and no other transaction. */
  lemma {:induction false} OfTypeMultiset(ts: seq<Transaction>, k: TransactionType)
    ensures forall t :: multiset(OfType(ts, k))[t] == if t.kind == k then multiset(ts)[t] else 0
    decreases |ts|
  {
    if ts != [] {
      var head, rest := ts[0], ts[1..];
      assert ts == [head] + rest;
      OfTypeMultiset(rest, k);
      assert OfType(ts, k) == (if head.kind == k then [head] else []) + OfType(rest, k);
    }
  }

  /** The category filter keeps each transaction of category `c` exactly as
      often as it occurs in `ts`, and no other transaction. */
  lemma {:induction false} InCategoryMultiset(ts: seq<Transaction>, c: string)
    ensures forall t :: multiset(InCategory(ts, c))[t] == if t.category == c then multiset(ts)[t] else 0
    decreases |ts|
  {
    if ts != [] {
      var head, rest := ts[0], ts[1..];
      assert ts == [head] + rest;
      InCategoryMultiset(rest, c);
      assert InCategory(ts, c) == (if head.category == c then [head] else []) + InCategory(rest, c);
    }
  }

  /** Income and expense partition a list: together the two filters keep
      every transaction exactly as often as it occurs. */
  lemma OfTypePartition(ts: seq<Transaction>)
    ensures multiset(OfType(ts, Income)) + multiset(OfType(ts, Expense)) == multiset(ts)
  {
    OfTypeMultiset(ts, Income);
    OfTypeMultiset(ts, Expense);
    var a, b := multiset(OfType(ts, Income)), multiset(OfType(ts, Expense));
    forall t
      ensures (a + b)[t] == multiset(ts)[t]
    {
    }
  }

  /** Reference sum of the amounts of `ts`. */
  function Total(ts: seq<Transaction>): real {
    if ts == [] then 0.0 else ts[0].amount + Total(ts[1..])
  }

  lemma TotalCons(t: Transaction, ts: seq<Transaction>)
    ensures Total([t] + ts) == t.amount + Total(ts)
  {
    assert ([t] + ts)[1..] == ts;
  }

  /** `reduce((acc, t) => acc + t.amount, acc)`. */
  function SumFrom(acc: real, ts: seq<Transaction>): real
    decreases |ts|
  {
    if ts == [] then acc else SumFrom(acc + ts[0].amount, ts[1..])
  }

  /** One step of the balance fold: add income, subtract everything else. */
  function Signed(acc: real, t: Transaction): real {
    if t.kind == Income then acc + t.amount else acc - t.amount
  }

  function BalanceFrom(acc: real, ts: seq<Transaction>): real
    decreases |ts|
  {
    if ts == [] then acc else BalanceFrom(Signed(acc, ts[0]), ts[1..])
  }

  /** `calculateBalance`. */
  function CalculateBalance(ts: seq<Transaction>): real {
    BalanceFrom(0.0, ts)
  }

  /** `calculateIncome`. */
  function CalculateIncome(ts: seq<Transaction>): real {
    SumFrom(0.0, OfType(ts, Income))
  }

  /** `calculateExpense`. */
  function CalculateExpense(ts: seq<Transaction>): real {
    SumFrom(0.0, OfType(ts, Expense))
  }

  lemma {:induction false} TotalAppend(a: seq<Transaction>, b: seq<Transaction>)
    ensures Total(a + b) == Total(a) + Total(b)
  {
    if a != [] {
      assert (a + b)[1..] == a[1..] + b;
      TotalAppend(a[1..], b);
    } else {
      assert a + b == b;
    }
  }

  lemma {:induction false} OfTypeAppend(a: seq<Transaction>, b: seq<Transaction>, k: TransactionType)
    ensures OfType(a + b, k) == OfType(a, k) + OfType(b, k)
  {
    if a != [] {
      assert (a + b)[1..] == a[1..] + b;
      OfTypeAppend(a[1..], b, k);
    } else {
      assert a + b == b;
    }
  }

  /** The left fold that `reduce` performs sums the same amounts as the
      reference sum, starting from the accumulator. */
  lemma {:induction false} SumFromIsTotal(acc: real, ts: seq<Transaction>)
    ensures SumFrom(acc, ts) == acc + Total(ts)
    decreases |ts|
  {
    if ts != [] {
      SumFromIsTotal(acc + ts[0].amount, ts[1..]);
    }
  }

  /** The income of a list is the sum of the amounts of its income
      transactions, and likewise for expense. */
  lemma IncomeExpenseAreTotals(ts: seq<Transaction>)
    ensures CalculateIncome(ts) == Total(OfType(ts, Income))
    ensures CalculateExpense(ts) == Total(OfType(ts, Expense))
  {
    SumFromIsTotal(0.0, OfType(ts, Income));
    SumFromIsTotal(0.0, OfType(ts, Expense));
  }

  lemma {:induction false} BalanceFromSplits(acc: real, ts: seq<Transaction>)
    ensures BalanceFrom(acc, ts) == acc + Total(OfType(ts, Income)) - Total(OfType(ts, Expense))
    decreases |ts|
  {
    if ts != [] {
      BalanceFromSplits(Signed(acc, ts[0]), ts[1..]);
      var inc, exp := OfType(ts[1..], Income), OfType(ts[1..], Expense);
      if ts[0].kind == Income {
        assert OfType(ts, Income) == [ts[0]] + inc && OfType(ts, Expense) == exp;
        TotalCons(ts[0], inc);
      } else {
        assert OfType(ts, Expense) == [ts[0]] + exp && OfType(ts, Income) == inc;
        TotalCons(ts[0], exp);
      }
    }
  }

  /** Balance is income minus expense. Every transaction that is not income
      is subtracted by the balance fold, and with two transaction types that
      is exactly the expenses. */
  lemma BalanceIsIncomeMinusExpense(ts: seq<Transaction>)
    ensures CalculateBalance(ts) == CalculateIncome(ts) - CalculateExpense(ts)
  {
    BalanceFromSplits(0.0, ts);
    IncomeExpenseAreTotals(ts);
  }

  /** All three totals are zero on the empty list. */
  lemma EmptyTotals()
    ensures CalculateBalance([]) == 0.0
    ensures CalculateIncome([]) == 0.0
    ensures CalculateExpense([]) == 0.0
  {
  }

  /** Income and expense are additive over concatenation. */
  lemma TotalsAdditive(a: seq<Transaction>, b: seq<Transaction>)
    ensures CalculateIncome(a + b) == CalculateIncome(a) + CalculateIncome(b)
    ensures CalculateExpense(a + b) == CalculateExpense(a) + CalculateExpense(b)
    ensures CalculateBalance(a + b) == CalculateBalance(a) + CalculateBalance(b)
  {
    IncomeExpenseAreTotals(a);
    IncomeExpenseAreTotals(b);
    IncomeExpenseAreTotals(a + b);
    OfTypeAppend(a, b, Income);
    OfTypeAppend(a, b, Expense);
    TotalAppend(OfType(a, Income), OfType(b, Income));
    TotalAppend(OfType(a, Expense), OfType(b, Expense));
    BalanceIsIncomeMinusExpense(a);
    BalanceIsIncomeMinusExpense(b);
    BalanceIsIncomeMinusExpense(a + b);
  }

  /** Every amount of `ts` is at least zero. */
  predicate NonNegativeAmounts(ts: seq<Transaction>) {
    forall i :: 0 <= i < |ts| ==> ts[i].amount >= 0.0
  }

  lemma {:induction false} TotalNonNegative(ts: seq<Transaction>)
    requires NonNegativeAmounts(ts)
    ensures Total(ts) >= 0.0
  {
    if ts != [] {
      assert NonNegativeAmounts(ts[1..]) by {
        forall i | 0 <= i < |ts[1..]|
          ensures ts[1..][i].amount >= 0.0
        {
          assert ts[1..][i] == ts[i + 1];
        }
      }
      TotalNonNegative(ts[1..]);
    }
  }

  lemma FilterNonNegative(ts: seq<Transaction>, k: TransactionType)
    requires NonNegativeAmounts(ts)
    ensures NonNegativeAmounts(OfType(ts, k))
  {
    var r := OfType(ts, k);
    forall i | 0 <= i < |r|
      ensures r[i].amount >= 0.0
    {
      assert r[i] in r;
      var j :| 0 <= j < |ts| && ts[j] == r[i];
    }
  }

  /** With non-negative amounts, income and expense are non-negative. */
  lemma TotalsNonNegative(ts: seq<Transaction>)
    requires NonNegativeAmounts(ts)
    ensures CalculateIncome(ts) >= 0.0 && CalculateExpense(ts) >= 0.0
  {
    IncomeExpenseAreTotals(ts);
    FilterNonNegative(ts, Income);
    FilterNonNegative(ts, Expense);
    TotalNonNegative(OfType(ts, Income));
    TotalNonNegative(OfType(ts, Expense));
  }

  /** One `{name, value}` pair of `calculateCategoryTotals`. */
  datatype CategoryTotal = CategoryTotal(name: string, value: real)

  /** Some entry of `es` is named `n`. */
  predicate Named(es: seq<CategoryTotal>, n: string) {
    exists i :: 0 <= i < |es| && es[i].name == n
  }

  /** No name occurs twice in `es`. */
  predicate DistinctNames(es: seq<CategoryTotal>) {
    forall i, j :: 0 <= i < j < |es| ==> es[i].name != es[j].name
  }

  lemma NamedCons(e: CategoryTotal, es: seq<CategoryTotal>)
    ensures forall n :: Named([e] + es, n) <==> e.name == n || Named(es, n)
  {
    forall n
      ensures Named([e] + es, n) <==> e.name == n || Named(es, n)
    {
      assert ([e] + es)[0] == e;
      if Named(es, n) {
        var i :| 0 <= i < |es| && es[i].name == n;
        assert ([e] + es)[i + 1] == es[i];
      }
      if Named([e] + es, n) && e.name != n {
        var i :| 0 <= i < |[e] + es| && ([e] + es)[i].name == n;
        assert es[i - 1] == ([e] + es)[i];
      }
    }
  }

  lemma DistinctCons(e: CategoryTotal, es: seq<CategoryTotal>)
    ensures DistinctNames([e] + es) <==> DistinctNames(es) && !Named(es, e.name)
  {
    var r := [e] + es;
    if DistinctNames(r) {
      forall i, j | 0 <= i < j < |es|
        ensures es[i].name != es[j].name
      {
        assert r[i + 1] == es[i] && r[j + 1] == es[j];
      }
      forall i | 0 <= i < |es|
        ensures es[i].name != e.name
      {
        assert r[i + 1] == es[i] && r[0] == e;
      }
    }
    if DistinctNames(es) && !Named(es, e.name) {
      forall i, j | 0 <= i < j < |r|
        ensures r[i].name != r[j].name
      {
        assert r[j] == es[j - 1];
        if i > 0 {
          assert r[i] == es[i - 1];
        }
      }
    }
  }

  /** The value recorded for `n`, or 0 when there is none: what the source's
      accumulator object holds at key `n` after its falsy-reset. */
  function Lookup(es: seq<CategoryTotal>, n: string): real {
    if es == [] then 0.0
    else if es[0].name == n then es[0].value
    else Lookup(es[1..], n)
  }

  /** Sum of the values of `es`. */
  function ValueSum(es: seq<CategoryTotal>): real {
    if es == [] then 0.0 else es[0].value + ValueSum(es[1..])
  }

  /** One step of the grouping `reduce`: add `amount` to the entry named `c`,
      creating it at the end, with the value 0, when there is none. A present
      entry is reset to 0 only when it is falsy, that is already 0, so the
      reset never changes a value. */
  function Credit(es: seq<CategoryTotal>, c: string, amount: real): (r: seq<CategoryTotal>)
    ensures forall n :: Lookup(r, n) == Lookup(es, n) + (if n == c then amount else 0.0)
    ensures forall n :: Named(r, n) <==> Named(es, n) || n == c
    ensures DistinctNames(es) ==> DistinctNames(r)
    ensures ValueSum(r) == ValueSum(es) + amount
  {
    if es == [] then
      NamedCons(CategoryTotal(c, 0.0 + amount), []);
      [CategoryTotal(c, 0.0 + amount)]
    else
      assert es == [es[0]] + es[1..];
      NamedCons(es[0], es[1..]);
      DistinctCons(es[0], es[1..]);
      if es[0].name == c then
        var e := CategoryTotal(c, es[0].value + amount);
        NamedCons(e, es[1..]);
        DistinctCons(e, es[1..]);
        [e] + es[1..]
      else
        var rest := Credit(es[1..], c, amount);
        NamedCons(es[0], rest);
        DistinctCons(es[0], rest);
        [es[0]] + rest
  }

  /** The grouping `reduce` over already filtered transactions. */
  function Group(acc: seq<CategoryTotal>, ts: seq<Transaction>): seq<CategoryTotal>
    decreases |ts|
  {
    if ts == [] then acc
    else Group(Credit(acc, ts[0].category, ts[0].amount), ts[1..])
  }

  /** Some transaction of `ts` is in category `c`. */
  predicate HasCategory(ts: seq<Transaction>, c: string) {
    exists i :: 0 <= i < |ts| && ts[i].category == c
  }

  lemma {:induction false} GroupSpec(acc: seq<CategoryTotal>, ts: seq<Transaction>)
    requires DistinctNames(acc)
    ensures DistinctNames(Group(acc, ts))
    ensures forall n :: Named(Group(acc, ts), n) <==> Named(acc, n) || HasCategory(ts, n)
    ensures forall n :: Lookup(Group(acc, ts), n) == Lookup(acc, n) + Total(InCategory(ts, n))
    ensures ValueSum(Group(acc, ts)) == ValueSum(acc) + Total(ts)
    decreases |ts|
  {
    if ts != [] {
      var acc' := Credit(acc, ts[0].category, ts[0].amount);
      GroupSpec(acc', ts[1..]);
      forall n
        ensures Total(InCategory(ts, n)) == (if n == ts[0].category then ts[0].amount else 0.0) + Total(InCategory(ts[1..], n))
      {
        if n == ts[0].category {
          assert InCategory(ts, n) == [ts[0]] + InCategory(ts[1..], n);
          TotalCons(ts[0], InCategory(ts[1..], n));
        } else {
          assert InCategory(ts, n) == InCategory(ts[1..], n);
        }
      }
      forall n
        ensures HasCategory(ts, n) <==> n == ts[0].category || HasCategory(ts[1..], n)
      {
        if HasCategory(ts, n) && n != ts[0].category {
          var i :| 0 <= i < |ts| && ts[i].category == n;
          assert ts[1..][i - 1].category == n;
        }
        if HasCategory(ts[1..], n) {
          var i :| 0 <= i < |ts[1..]| && ts[1..][i].category == n;
          assert ts[i + 1].category == n;
        }
      }
    }
  }

  lemma {:induction false} LookupFindsEntry(es: seq<CategoryTotal>, i: nat)
    requires DistinctNames(es) && i < |es|
    ensures Lookup(es, es[i].name) == es[i].value
  {
    if i > 0 {
      assert es[0].name != es[i].name;
      assert es[1..][i - 1] == es[i];
      LookupFindsEntry(es[1..], i - 1);
    }
  }

  lemma CategoriesOfType(ts: seq<Transaction>, k: TransactionType)
    ensures forall n :: HasCategory(OfType(ts, k), n) <==> exists t :: t in ts && t.kind == k && t.category == n
  {
    var f := OfType(ts, k);
    forall n
      ensures HasCategory(f, n) <==> exists t :: t in ts && t.kind == k && t.category == n
    {
      if HasCategory(f, n) {
        var i :| 0 <= i < |f| && f[i].category == n;
        assert f[i] in f;
      }
      if exists t :: t in ts && t.kind == k && t.category == n {
        var t :| t in ts && t.kind == k && t.category == n;
        assert t in f;
        var i :| 0 <= i < |f| && f[i] == t;
      }
    }
  }

  lemma EntriesAreLookups(es: seq<CategoryTotal>)
    requires DistinctNames(es)
    ensures forall i :: 0 <= i < |es| ==> es[i].value == Lookup(es, es[i].name)
  {
    forall i | 0 <= i < |es|
      ensures es[i].value == Lookup(es, es[i].name)
    {
      LookupFindsEntry(es, i);
    }
  }

  /** `calculateCategoryTotals`: group the transactions of type `k` by
      category. Each category occurs once; the names are exactly the
      categories of the transactions of type `k`; each value is the sum of
      the amounts of that type and category; the values add up to the total
      of that type. */
  function CalculateCategoryTotals(ts: seq<Transaction>, k: TransactionType): (r: seq<CategoryTotal>)
    ensures DistinctNames(r)
    ensures forall n :: Named(r, n) <==> exists t :: t in ts && t.kind == k && t.category == n
    ensures forall i :: 0 <= i < |r| ==> r[i].value == Total(InCategory(OfType(ts, k), r[i].name))
    ensures ValueSum(r) == Total(OfType(ts, k))
  {
    var r := Group([], OfType(ts, k));
    GroupSpec([], OfType(ts, k));
    CategoriesOfType(ts, k);
    EntriesAreLookups(r);
    r
  }

  /** The category totals of income add up to the income, and those of
      expense to the expense. */
  lemma CategoryTotalsSumToTotals(ts: seq<Transaction>)
    ensures ValueSum(CalculateCategoryTotals(ts, Income)) == CalculateIncome(ts)
    ensures ValueSum(CalculateCategoryTotals(ts, Expense)) == CalculateExpense(ts)
  {
    IncomeExpenseAreTotals(ts);
  }
}

=== FILE: store.dfy ===
/** The store as a state machine: how each reducer action moves the totals,
    and the invariant kept by every run of actions from the seed state whose
    inputs satisfy the form's rules and whose added ids are fresh. */
module Store {
  import opened Transactions
  import opened Calculations

  /** What one transaction adds to the total of type `k`. */
  function Contribution(t: Transaction, k: TransactionType): real {
    if t.kind == k then t.amount else 0.0
  }

  lemma SingletonTotals(t: Transaction)
    ensures CalculateIncome([t]) == Contribution(t, Income)
    ensures CalculateExpense([t]) == Contribution(t, Expense)
  {
    IncomeExpenseAreTotals([t]);
    assert OfType([t], Income) == (if t.kind == Income then [t] else []);
    assert OfType([t], Expense) == (if t.kind == Expense then [t] else []);
  }

  /** ADD raises the total of the payload's type by its amount and leaves the
      other total unchanged. */
  lemma AddMovesTotals(ts: seq<Transaction>, t: Transaction)
    ensures CalculateIncome(Reduce(ts, Add(t))) == CalculateIncome(ts) + Contribution(t, Income)
    ensures CalculateExpense(Reduce(ts, Add(t))) == CalculateExpense(ts) + Contribution(t, Expense)
    ensures CalculateBalance(Reduce(ts, Add(t)))
      == CalculateBalance(ts) + Contribution(t, Income) - Contribution(t, Expense)
  {
    assert Reduce(ts, Add(t)) == ts + [t];
    TotalsAdditive(ts, [t]);
    SingletonTotals(t);
    BalanceIsIncomeMinusExpense(ts + [t]);
    BalanceIsIncomeMinusExpense(ts);
  }

  lemma {:induction false} RemoveAppend(a: seq<Transaction>, b: seq<Transaction>, id: string)
    ensures Remove(a + b, id) == Remove(a, id) + Remove(b, id)
  {
    if a == [] {
      assert a + b == b;
    } else {
      assert (a + b)[1..] == a[1..] + b;
      RemoveAppend(a[1..], b, id);
    }
  }

  lemma IdOnlyAt(ts: seq<Transaction>, i: nat)
    requires DistinctIds(ts) && i < |ts|
    ensures !HasId(ts[..i], ts[i].id) && !HasId(ts[i + 1..], ts[i].id)
  {
    var front, back := ts[..i], ts[i + 1..];
    forall k | 0 <= k < |front|
      ensures front[k].id != ts[i].id
    {
      assert front[k] == ts[k];
    }
    forall k | 0 <= k < |back|
      ensures back[k].id != ts[i].id
    {
      assert back[k] == ts[i + 1 + k];
    }
  }

  lemma RemoveAround(front: seq<Transaction>, t: Transaction, back: seq<Transaction>)
    requires !HasId(front, t.id) && !HasId(back, t.id)
    ensures Remove(front + [t] + back, t.id) == front + back
  {
    var id := t.id;
    RemoveAppend(front + [t], back, id);
    RemoveAppend(front, [t], id);
    var f, m, b := Remove(front, id), Remove([t], id), Remove(back, id);
    assert f == front;
    assert m == [] by {
      assert [t][1..] == [];
    }
    assert b == back;
    assert front + [] == front;
  }

  lemma RemoveUnique(ts: seq<Transaction>, i: nat)
    requires DistinctIds(ts) && i < |ts|
    ensures Remove(ts, ts[i].id) == ts[..i] + ts[i + 1..]
  {
    var front, t, back := ts[..i], ts[i], ts[i + 1..];
    assert ts == front + [t] + back;
    IdOnlyAt(ts, i);
    RemoveAround(front, t, back);
  }

  /** With distinct ids, DELETE of a present id removes exactly that one
      transaction, so the length drops by one. */
  lemma DeletePresentRemovesOne(ts: seq<Transaction>, i: nat)
    requires DistinctIds(ts) && i < |ts|
    ensures Reduce(ts, Delete(ts[i].id)) == ts[..i] + ts[i + 1..]
    ensures |Reduce(ts, Delete(ts[i].id))| == |ts| - 1
  {
    RemoveUnique(ts, i);
  }

  /** Splitting a list around position `i` splits its totals. */
  lemma TotalsAround(ts: seq<Transaction>, i: nat)
    requires i < |ts|
    ensures CalculateIncome(ts)
      == CalculateIncome(ts[..i] + ts[i + 1..]) + Contribution(ts[i], Income)
    ensures CalculateExpense(ts)
      == CalculateExpense(ts[..i] + ts[i + 1..]) + Contribution(ts[i], Expense)
  {
    assert ts == ts[..i] + [ts[i]] + ts[i + 1..];
    TotalsAdditive(ts[..i] + [ts[i]], ts[i + 1..]);
    TotalsAdditive(ts[..i], [ts[i]]);
    TotalsAdditive(ts[..i], ts[i + 1..]);
    SingletonTotals(ts[i]);
  }

  /** With distinct ids, DELETE of a present id takes that transaction's
      amount off the total of its type. */
  lemma DeleteMovesTotals(ts: seq<Transaction>, i: nat)
    requires DistinctIds(ts) && i < |ts|
    ensures CalculateIncome(Reduce(ts, Delete(ts[i].id)))
      == CalculateIncome(ts) - Contribution(ts[i], Income)
    ensures CalculateExpense(Reduce(ts, Delete(ts[i].id)))
      == CalculateExpense(ts) - Contribution(ts[i], Expense)
  {
    RemoveUnique(ts, i);
    TotalsAround(ts, i);
  }

  /** With distinct ids, EDIT of a present id swaps the old transaction's
      contribution to each total for the payload's. */
  lemma EditMovesTotals(ts: seq<Transaction>, i: nat, t: Transaction)
    requires DistinctIds(ts) && i < |ts| && ts[i].id == t.id
    ensures Reduce(ts, Edit(t)) == ts[..i] + [t] + ts[i + 1..]
    ensures CalculateIncome(Reduce(ts, Edit(t)))
      == CalculateIncome(ts) - Contribution(ts[i], Income) + Contribution(t, Income)
    ensures CalculateExpense(Reduce(ts, Edit(t)))
      == CalculateExpense(ts) - Contribution(ts[i], Expense) + Contribution(t, Expense)
  {
    var r := Reduce(ts, Edit(t));
    assert r == ts[..i] + [t] + ts[i + 1..];
    assert r[..i] + r[i + 1..] == ts[..i] + ts[i + 1..];
    TotalsAround(ts, i);
    TotalsAround(r, i);
  }

  /** What the form demands of a transaction before it reaches the store: a
      positive amount and non-empty text fields. */
  predicate Valid(t: Transaction) {
    t.amount > 0.0 && t.description != "" && t.category != "" && t.date != ""
  }

  /** The actions this invariant covers: valid payloads, and a fresh id on
      ADD. Freshness is assumed here; the reducer does not check it and the
      time-based id generator does not guarantee it. */
  predicate Admissible(ts: seq<Transaction>, a: Action) {
    match a
    case Add(t) => Valid(t) && !HasId(ts, t.id)
    case Edit(t) => Valid(t)
    case Delete(_) => true
  }

  /** The state invariant: distinct ids and valid transactions. */
  predicate Invariant(ts: seq<Transaction>) {
    DistinctIds(ts) && forall i :: 0 <= i < |ts| ==> Valid(ts[i])
  }

  /** The state after dispatching `actions` in order, as `useReducer` does. */
  function Run(ts: seq<Transaction>, actions: seq<Action>): seq<Transaction>
    decreases |actions|
  {
    if actions == [] then ts else Run(Reduce(ts, actions[0]), actions[1..])
  }

  /** Every action of the run is admissible in the state it is dispatched in. */
  predicate AdmissibleRun(ts: seq<Transaction>, actions: seq<Action>)
    decreases |actions|
  {
    actions == [] || (Admissible(ts, actions[0]) && AdmissibleRun(Reduce(ts, actions[0]), actions[1..]))
  }

  lemma ReduceKeepsInvariant(ts: seq<Transaction>, a: Action)
    requires Invariant(ts) && Admissible(ts, a)
    ensures Invariant(Reduce(ts, a))
  {
    ReducePreservesDistinctIds(ts, a);
    var r := Reduce(ts, a);
    forall i | 0 <= i < |r|
      ensures Valid(r[i])
    {
      match a
      case Add(t) =>
        if i < |ts| {
          assert r[i] == r[..|ts|][i];
        }
      case Edit(t) =>
      case Delete(id) =>
        RemoveMembers(ts, id);
        assert r[i] in r;
        var j :| 0 <= j < |ts| && ts[j] == r[i];
    }
  }

  /** Every admissible run keeps the invariant. */
  lemma {:induction false} RunKeepsInvariant(ts: seq<Transaction>, actions: seq<Action>)
    requires Invariant(ts) && AdmissibleRun(ts, actions)
    ensures Invariant(Run(ts, actions))
    decreases |actions|
  {
    if actions != [] {
      ReduceKeepsInvariant(ts, actions[0]);
      RunKeepsInvariant(Reduce(ts, actions[0]), actions[1..]);
    }
  }

  /** The seed state meets the invariant. */
  lemma SeedInvariant()
    ensures Invariant(Seed)
  {
    SeedDistinctIds();
  }

  /** Every state the store reaches from the seed by admissible actions has
      distinct ids and non-negative income and expense. The balance conjunct
      holds of every list (`BalanceIsIncomeMinusExpense`) and is restated here
      so that the lemma lists every figure the dashboard shows. */
  lemma ReachableStates(actions: seq<Action>)
    requires AdmissibleRun(Seed, actions)
    ensures var s := Run(Seed, actions);
      && DistinctIds(s)
      && CalculateIncome(s) >= 0.0 && CalculateExpense(s) >= 0.0
      && CalculateBalance(s) == CalculateIncome(s) - CalculateExpense(s)
  {
    SeedInvariant();
    RunKeepsInvariant(Seed, actions);
    var s := Run(Seed, actions);
    TotalsNonNegative(s);
    BalanceIsIncomeMinusExpense(s);
  }

  /** Income and expense of a four-transaction list, one contribution at a
      time. */
  lemma FourTotals(a: Transaction, b: Transaction, c: Transaction, d: Transaction)
    ensures CalculateIncome([a, b, c, d]) == Contribution(a, Income) + Contribution(b, Income)
      + Contribution(c, Income) + Contribution(d, Income)
    ensures CalculateExpense([a, b, c, d]) == Contribution(a, Expense) + Contribution(b, Expense)
      + Contribution(c, Expense) + Contribution(d, Expense)
  {
    var ab, cd := [a, b], [c, d];
    assert [a, b, c, d] == ab + cd;
    assert ab == [a] + [b];
    assert cd == [c] + [d];
    SingletonTotals(a);
    SingletonTotals(b);
    SingletonTotals(c);
    SingletonTotals(d);
    TotalsAdditive([a], [b]);
    TotalsAdditive([c], [d]);
    TotalsAdditive(ab, cd);
  }

  /** The figures the dashboard shows for the seed state. */
  lemma SeedFigures()
    ensures CalculateBalance(Seed) == 4650.0
    ensures CalculateIncome(Seed) == 6000.0
    ensures CalculateExpense(Seed) == 1350.0
  {
    assert Seed == [Seed[0], Seed[1], Seed[2], Seed[3]];
    FourTotals(Seed[0], Seed[1], Seed[2], Seed[3]);
    BalanceIsIncomeMinusExpense(Seed);
  }

  /** The expense category totals of the seed list as the reducer holds it:
      housing, then food. */
  lemma SeedExpenseCategories()
    ensures CalculateCategoryTotals(Seed, Expense)
      == [CategoryTotal("Housing", 1200.0), CategoryTotal("Food", 150.0)]
  {
    var b, c := Seed[1], Seed[2];
    assert OfType(Seed, Expense) == [b, c] by {
      assert Seed[3..] == [Seed[3]];
      assert OfType(Seed[3..], Expense) == [];
      assert Seed[2..][1..] == Seed[3..];
      assert OfType(Seed[2..], Expense) == [c];
      assert Seed[1..][1..] == Seed[2..];
      assert OfType(Seed[1..], Expense) == [b, c];
    }
    var g1 := Credit([], "Housing", 1200.0);
    assert g1 == [CategoryTotal("Housing", 1200.0)];
    assert Group([], [b, c]) == Group(g1, [c]);
    assert [b, c][1..] == [c];
    var g2 := Credit(g1, "Food", 150.0);
    assert g2 == [CategoryTotal("Housing", 1200.0), CategoryTotal("Food", 150.0)];
    assert Group(g1, [c]) == Group(g2, []);
  }

  /** The same seed after the transaction list has sorted it in place by
      date, newest first: the entries now come out food, then housing. */
  lemma SortedSeedExpenseCategories()
    ensures CalculateCategoryTotals([Seed[0], Seed[2], Seed[1], Seed[3]], Expense)
      == [CategoryTotal("Food", 150.0), CategoryTotal("Housing", 1200.0)]
  {
    var a, b, c, d := Seed[0], Seed[1], Seed[2], Seed[3];
    var sorted := [a, c, b, d];
    assert OfType(sorted, Expense) == [c, b] by {
      assert sorted[3..] == [d];
      assert OfType(sorted[3..], Expense) == [];
      assert sorted[2..][1..] == sorted[3..];
      assert OfType(sorted[2..], Expense) == [b];
      assert sorted[1..][1..] == sorted[2..];
      assert OfType(sorted[1..], Expense) == [c, b];
    }
    var g1 := Credit([], "Food", 150.0);
    assert g1 == [CategoryTotal("Food", 150.0)];
    assert Group([], [c, b]) == Group(g1, [b]);
    assert [c, b][1..] == [b];
    var g2 := Credit(g1, "Housing", 1200.0);
    assert g2 == [CategoryTotal("Food", 150.0), CategoryTotal("Housing", 1200.0)];
    assert Group(g1, [b]) == Group(g2, []);
  }
}

=== FILE: transactions.dfy ===
/** The transaction store of the budget tracker: the transaction record, the
    three actions of the reducer, the reducer itself, the seed state and the
    id stamping done when a new transaction is added.

    A JavaScript `number` amount is modelled as an exact `real`; the field the
    source calls `type` is called `kind` here, because `type` is a Dafny keyword. */
module Transactions {

  datatype TransactionType = Income | Expense

  datatype Transaction = Transaction(
    id: string,
    description: string,
    amount: real,
    kind: TransactionType,
    category: string,
    date: string)

  /** What a caller supplies to add a transaction: every field but the id. */
  datatype Fields = Fields(
    description: string,
    amount: real,
    kind: TransactionType,
    category: string,
    date: string)

  /** The closed set of actions the reducer understands. */
  datatype Action =
    | Add(payload: Transaction)
    | Edit(payload: Transaction)
    | Delete(target: string)

  /** Some transaction of `ts` carries the id `id`. */
  predicate HasId(ts: seq<Transaction>, id: string) {
    exists i :: 0 <= i < |ts| && ts[i].id == id
  }

  /** No two transactions of `ts` share an id. */
  predicate DistinctIds(ts: seq<Transaction>) {
    forall i, j :: 0 <= i < j < |ts| ==> ts[i].id != ts[j].id
  }

  /** The number of transactions of `ts` whose id is `id`. */
  function CountId(ts: seq<Transaction>, id: string): nat {
    if ts == [] then 0
    else (if ts[0].id == id then 1 else 0) + CountId(ts[1..], id)
  }

  lemma {:induction false} CountIdBounds(ts: seq<Transaction>, id: string)
    ensures CountId(ts, id) <= |ts|
    ensures CountId(ts, id) == 0 <==> !HasId(ts, id)
  {
    if ts != [] {
      CountIdBounds(ts[1..], id);
      if HasId(ts[1..], id) {
        var i :| 0 <= i < |ts[1..]| && ts[1..][i].id == id;
        assert ts[i + 1].id == id;
      }
      if HasId(ts, id) && ts[0].id != id {
        var i :| 0 <= i < |ts| && ts[i].id == id;
        assert ts[1..][i - 1].id == id;
      }
    }
  }

  /** The EDIT branch: every transaction whose id is the payload's id is
      replaced, in place, by the payload. */
  function EditAll(ts: seq<Transaction>, t: Transaction): (r: seq<Transaction>)
    ensures |r| == |ts|
    ensures forall i :: 0 <= i < |ts| ==> r[i] == (if ts[i].id == t.id then t else ts[i])
    ensures forall i :: 0 <= i < |ts| ==> r[i].id == ts[i].id
    ensures !HasId(ts, t.id) ==> r == ts
  {
    if ts == [] then []
    else [if ts[0].id == t.id then t else ts[0]] + EditAll(ts[1..], t)
  }

  /** The DELETE branch: the transactions whose id is not `id`, in order. */
  function Remove(ts: seq<Transaction>, id: string): (r: seq<Transaction>)
    ensures |r| == |ts| - CountId(ts, id)
    ensures !HasId(ts, id) ==> r == ts
  {
    if ts == [] then []
    else
      CountIdBounds(ts[1..], id);
      (if ts[0].id == id then [] else [ts[0]]) + Remove(ts[1..], id)
  }

  /** A transaction survives DELETE iff it was there and its id differs. */
  lemma {:induction false} RemoveMembers(ts: seq<Transaction>, id: string)
    ensures forall t :: t in Remove(ts, id) <==> t in ts && t.id != id
  {
    if ts != [] {
      RemoveMembers(ts[1..], id);
      assert ts == [ts[0]] + ts[1..];
    }
  }

  /** The positions, counted from `base`, of the transactions of `ts` whose
      id is not `id`, in increasing order. */
  function KeptFrom(ts: seq<Transaction>, id: string, base: nat): seq<nat> {
    if ts == [] then []
    else (if ts[0].id == id then [] else [base]) + KeptFrom(ts[1..], id, base + 1)
  }

  /** The k-th transaction of `r` is the transaction of `ts` at position
      `p[k]`, counted from `base`. */
  ghost predicate Aligned(p: seq<nat>, r: seq<Transaction>, ts: seq<Transaction>, base: nat) {
    && |p| == |r|
    && forall k :: 0 <= k < |p| ==> base <= p[k] < base + |ts| && r[k] == ts[p[k] - base]
  }

  lemma {:induction false} KeptFromAligned(ts: seq<Transaction>, id: string, base: nat)
    ensures Aligned(KeptFrom(ts, id, base), Remove(ts, id), ts, base)
  {
    if ts != [] {
      KeptFromAligned(ts[1..], id, base + 1);
      var rest, tail := KeptFrom(ts[1..], id, base + 1), Remove(ts[1..], id);
      assert Aligned(rest, tail, ts[1..], base + 1);
      var n := if ts[0].id == id then 0 else 1;
      var p := (if ts[0].id == id then [] else [base]) + rest;
      var r := (if ts[0].id == id then [] else [ts[0]]) + tail;
      forall k | 0 <= k < |p|
        ensures base <= p[k] < base + |ts| && r[k] == ts[p[k] - base]
      {
        if k >= n {
          var q := rest[k - n];
          assert p[k] == q && r[k] == tail[k - n];
          assert base + 1 <= q < base + |ts| && tail[k - n] == ts[1..][q - (base + 1)];
        }
      }
      assert Aligned(p, r, ts, base);
    }
  }

  lemma {:induction false} KeptFromIncreasing(ts: seq<Transaction>, id: string, base: nat)
    ensures forall k :: 0 <= k < |KeptFrom(ts, id, base)| ==> base <= KeptFrom(ts, id, base)[k]
    ensures forall a, b :: 0 <= a < b < |KeptFrom(ts, id, base)| ==>
      KeptFrom(ts, id, base)[a] < KeptFrom(ts, id, base)[b]
  {
    if ts != [] {
      KeptFromIncreasing(ts[1..], id, base + 1);
    }
  }

  lemma {:induction false} KeptFromCovers(ts: seq<Transaction>, id: string, base: nat)
    ensures forall j :: 0 <= j < |ts| && ts[j].id != id ==> base + j in KeptFrom(ts, id, base)
  {
    if ts != [] {
      KeptFromCovers(ts[1..], id, base + 1);
      forall j | 1 <= j < |ts| && ts[j].id != id
        ensures base + j in KeptFrom(ts, id, base)
      {
        assert ts[1..][j - 1] == ts[j];
        assert base + 1 + (j - 1) in KeptFrom(ts[1..], id, base + 1);
      }
    }
  }

  /** DELETE keeps the survivors in their original relative order: the k-th
      transaction after DELETE is the one at the k-th position that DELETE
      keeps, those positions increase strictly, and they cover every
      transaction whose id differs from the deleted one. */
  lemma DeleteKeepsOrder(ts: seq<Transaction>, id: string)
    ensures var p, r := KeptFrom(ts, id, 0), Reduce(ts, Delete(id));
      && |p| == |r|
      && (forall k :: 0 <= k < |p| ==> p[k] < |ts| && r[k] == ts[p[k]])
      && (forall a, b :: 0 <= a < b < |p| ==> p[a] < p[b])
      && (forall j :: 0 <= j < |ts| && ts[j].id != id ==> j in p)
  {
    KeptFromAligned(ts, id, 0);
    KeptFromIncreasing(ts, id, 0);
    KeptFromCovers(ts, id, 0);
  }

  /** The transaction reducer. The source's `default` branch returns the state
      unchanged; it cannot be reached with a closed `Action`. */
  function Reduce(ts: seq<Transaction>, a: Action): (r: seq<Transaction>)
    ensures a.Add? ==> |r| == |ts| + 1 && r[..|ts|] == ts && r[|ts|] == a.payload
    ensures a.Edit? ==> |r| == |ts| && (!HasId(ts, a.payload.id) ==> r == ts)
    ensures a.Delete? ==> |r| == |ts| - CountId(ts, a.target) && !HasId(r, a.target)
    ensures a.Delete? ==> (!HasId(ts, a.target) <==> r == ts)
  {
    match a
    case Add(t) => ts + [t]
    case Edit(t) => EditAll(ts, t)
    case Delete(id) =>
      var r := Remove(ts, id);
      CountIdBounds(ts, id);
      RemoveMembers(ts, id);
      assert forall i :: 0 <= i < |r| ==> r[i].id != id by {
        forall i | 0 <= i < |r|
          ensures r[i].id != id
        {
          assert r[i] in r;
        }
      }
      r
  }

  /** Applying the same EDIT twice is applying it once. */
  lemma EditIdempotent(ts: seq<Transaction>, t: Transaction)
    ensures Reduce(Reduce(ts, Edit(t)), Edit(t)) == Reduce(ts, Edit(t))
  {
  }

  /** Deleting the same id twice is deleting it once. */
  lemma DeleteIdempotent(ts: seq<Transaction>, id: string)
    ensures Reduce(Reduce(ts, Delete(id)), Delete(id)) == Reduce(ts, Delete(id))
  {
  }

  /** EDIT keeps every id at its position, so it keeps ids distinct. */
  lemma EditPreservesDistinctIds(ts: seq<Transaction>, t: Transaction)
    requires DistinctIds(ts)
    ensures DistinctIds(Reduce(ts, Edit(t)))
  {
  }

  /** DELETE keeps a subsequence, so it keeps ids distinct. */
  lemma DeletePreservesDistinctIds(ts: seq<Transaction>, id: string)
    requires DistinctIds(ts)
    ensures DistinctIds(Reduce(ts, Delete(id)))
  {
    var r := Remove(ts, id);
    var p := KeptFrom(ts, id, 0);
    DeleteKeepsOrder(ts, id);
    forall a, b | 0 <= a < b < |r|
      ensures r[a].id != r[b].id
    {
      assert r[a] == ts[p[a]] && r[b] == ts[p[b]] && p[a] < p[b];
    }
  }

  /** ADD keeps ids distinct exactly when the payload's id is fresh; the
      reducer itself does not check this. */
  lemma AddDistinctIdsIff(ts: seq<Transaction>, t: Transaction)
    ensures DistinctIds(Reduce(ts, Add(t))) <==> DistinctIds(ts) && !HasId(ts, t.id)
  {
    var r := Reduce(ts, Add(t));
    if DistinctIds(r) {
      assert forall i, j :: 0 <= i < j < |ts| ==> ts[i] == r[i] && ts[j] == r[j];
      forall i | 0 <= i < |ts|
        ensures ts[i].id != t.id
      {
        assert ts[i] == r[i] && t == r[|ts|];
      }
    }
  }

  /** From a state with distinct ids, the reducer keeps them distinct unless
      the action is an ADD whose payload's id is already present. */
  lemma ReducePreservesDistinctIds(ts: seq<Transaction>, a: Action)
    requires DistinctIds(ts)
    ensures DistinctIds(Reduce(ts, a)) <==> !(a.Add? && HasId(ts, a.payload.id))
  {
    match a
    case Add(t) => AddDistinctIdsIff(ts, t);
    case Edit(t) => EditPreservesDistinctIds(ts, t);
    case Delete(id) => DeletePreservesDistinctIds(ts, id);
  }

  /** The transaction an `addTransaction` call builds: the caller's fields
      plus the generated id. */
  function Stamp(f: Fields, id: string): Transaction {
    Transaction(id, f.description, f.amount, f.kind, f.category, f.date)
  }

  /** The fields of a transaction, without its id. */
  function Strip(t: Transaction): Fields {
    Fields(t.description, t.amount, t.kind, t.category, t.date)
  }

  /** Stamping copies every field unchanged: stripping the id again gives the
      caller's fields back, and every transaction is its fields stamped with
      its own id. */
  lemma StampStripRoundTrip(f: Fields, id: string, t: Transaction)
    ensures Strip(Stamp(f, id)) == f && Stamp(f, id).id == id
    ensures Stamp(Strip(t), t.id) == t
  {
  }

  /** `addTransaction`: stamp the fields with a caller-supplied id and
      dispatch ADD. Nothing checks that the id is fresh; ids stay distinct
      exactly when it is. */
  function AddTransaction(ts: seq<Transaction>, f: Fields, id: string): (r: seq<Transaction>)
    ensures |r| == |ts| + 1 && r[..|ts|] == ts
    ensures Strip(r[|ts|]) == f && r[|ts|].id == id
    ensures DistinctIds(r) <==> DistinctIds(ts) && !HasId(ts, id)
  {
    AddDistinctIdsIff(ts, Stamp(f, id));
    Reduce(ts, Add(Stamp(f, id)))
  }

  /** The four transactions the store starts with. */
  const Seed: seq<Transaction> := [
    Transaction("1", "Salary", 5000.0, Income, "Salary", "2023-04-05"),
    Transaction("2", "Rent", 1200.0, Expense, "Housing", "2023-04-03"),
    Transaction("3", "Groceries", 150.0, Expense, "Food", "2023-04-04"),
    Transaction("4", "Freelance Work", 1000.0, Income, "Freelance", "2023-04-02")
  ]

  /** The seed's ids "1" to "4" are distinct. */
  lemma SeedDistinctIds()
    ensures DistinctIds(Seed) && |Seed| == 4
  {
  }
}
